=== FILE: README.md ===
# Handler matching of a Telegram bot framework, in Dafny

This project models how the bot framework decides whether a handler applies
to an incoming update and what it extracts from it. It covers three files.

- `telegram/ext/commandhandler.py`:
  - `CommandHandler` recognises `/command[@botname] args...` messages.
  - `PrefixHandler` recognises `<prefix><command> args...` words.
- `telegram/ext/inlinequeryhandler.py`: `InlineQueryHandler` accepts inline
  queries. An optional regular expression gates the query text.
- `telegram/flow/inlineactionhandler.py`: `InlineActionHandler` routes
  callback queries through a session registry. It binds the session record's
  model data as `view_model`.

Layout:

- `wrappers.dfy`: `Option` and `Result`.
- `pystr.dfy`: the Python string operations the handlers use:
  - `str.split()`, modelled with Python's whitespace set;
  - `str.split('@')`;
  - slicing `s[i:j]`;
  - `str.lower()`.
- `telegram.dfy`: the fields of an update the handlers read, the
  filter's verdict (`False`/`True`/dict) and the `CallbackContext`. The
  context is a class whose attribute map the handlers update in place.
- `commandhandler.dfy`, `inlinequeryhandler.dfy`,
  `inlineactionhandler.dfy`: one module per source file. Handlers never
  change after construction, so each handler is a datatype value:
  - `__init__` is a method or function that builds the handler value.
    - Where the constructor can raise, it returns `Result`, and the raised
      exception becomes `Failure`: `NewCommandHandler` (ValueError) and
      `NewInlineQueryHandler` (the regex library's error).
    - `NewPrefixHandler` and `NewInlineActionHandler` never raise. They
      return the handler directly.
  - `check_update` is a pure function returning a datatype with one
    constructor per Python outcome: `None`, `False`, `True`, a tuple or a
    match object.
  - `collect_additional_context` is a method that modifies the context.
- The module `CommandExamples` (in `commandhandler.dfy`) works the handlers on
  concrete updates: `/start`, `/start@botname`, `/start@othername`,
  `/start hello world`, `/start<tab>hello<newline>  world`, `!test`, `#test`,
  `test` and `!help`.

The collaborators the handlers call are parameters. Their code is not part of
this model:

- The combined filter is a function from update to verdict.
- The regular-expression library is a `compile` function and an anchored
  `match` function.
- The session registry is a pair of lookup functions.
- `get_action_id` is a function.

Behaviour the model follows exactly as the code has it:

- Command validation lower-cases first and then applies
  `^[\da-z_]{1,32}$`. Upper-case input is therefore accepted. Python's `$`
  also accepts one trailing newline, so `"start\n"` passes (`ValidationExamples`).
- `PrefixHandler` stores a prefix list as given, without lower-casing it.
  Each combination is lower-cased when the cross product is built, and
  none of them is validated.
- `InlineQueryHandler` without a pattern accepts an inline query even when
  its text is empty. With a pattern, an empty query is never matched.
- `InlineActionHandler` passes the full callback data to `peek_action`, not a
  leading token. A resolved action different from the handler's yields
  `False` (`Some(false)`), not `None`.
- A truthy boolean filter result is kept as `True` in the returned tuple. It
  is not replaced by an empty dict.

## Model

| member | source | states |
|---|---|---|
| `PyStr.Lower` | telegram/ext/commandhandler.py:74-76 | lower-casing keeps the length and maps each character on its own |
| `PyStr.LowerIdempotent` | telegram/ext/commandhandler.py:187-194 | lower-casing twice equals lower-casing once (a single prefix string is lower-cased twice) |
| `PyStr.LowerConcat` | telegram/ext/commandhandler.py:194 | lower-casing a concatenation concatenates the lower-cased parts |
| `PyStr.Slice` | telegram/ext/commandhandler.py:101 | `s[i:j]` has the clamped length and the characters of `s` from `i` on |
| `PyStr.IsSpace` | telegram/ext/commandhandler.py:102 | the characters `str.split()` separates on, also used at line 210: the ASCII controls 0x09-0x0D and 0x1C-0x1F, the space, 0x85, 0xA0, 0x1680, 0x2000-0x200A, 0x2028, 0x2029, 0x202F, 0x205F and 0x3000 |
| `PyStr.Split` | telegram/ext/commandhandler.py:102 | every token of `str.split()` is non-empty and contains no whitespace |
| `PyStr.SplitJoin` | telegram/ext/commandhandler.py:102 | round trip: splitting tokens joined by single spaces gives back exactly those tokens |
| `PyStr.SplitAtSpace` | telegram/ext/commandhandler.py:102 | splitting at a whitespace character splits each side on its own |
| `PyStr.SplitKeepsContent` | telegram/ext/commandhandler.py:210 | the tokens, concatenated, are the text with every whitespace character removed |
| `PyStr.SplitEmptyIff` | telegram/ext/commandhandler.py:210-211 | `str.split()` returns no token exactly when the text is all whitespace |
| `PyStr.SplitToken` | telegram/ext/commandhandler.py:210 | a single token splits to itself |
| `PyStr.SplitLeadingSpace` | telegram/ext/commandhandler.py:102 | leading whitespace of any length contributes no token |
| `PyStr.SplitAfterToken` | telegram/ext/commandhandler.py:102 | a token followed by any non-empty run of whitespace is the first token of the split, and the rest splits on its own |
| `PyStr.SplitOn` | telegram/ext/commandhandler.py:103 | `str.split('@')` returns at least one field and no field contains `@` |
| `PyStr.SplitOnJoin` | telegram/ext/commandhandler.py:103 | round trip: joining the fields with `@` gives back the text |
| `PyStr.SplitOnAbsent` | telegram/ext/commandhandler.py:103-104 | a name without `@` is its own single field, so the bot name appended after it becomes the second field |
| `PyStr.SplitOnFirst` | telegram/ext/commandhandler.py:103 | the first field is the text before the first `@`; the remaining fields are those of the text after it |
| `Telegram.EffectiveMessage` | telegram/ext/commandhandler.py:96-97 | an effective message exists exactly for the four message kinds of update, and it is that update's message |
| `Telegram.EffectiveChat` | telegram/flow/inlineactionhandler.py:115 | an effective chat exists for a message, or for a callback query that carries a message; it is that message's chat |
| `Telegram.InlineQueryOf` | telegram/ext/inlinequeryhandler.py:75 | `update.inline_query`: present exactly for an inline-query update, and then it is that query |
| `Telegram.CallbackQueryOf` | telegram/flow/inlineactionhandler.py:108 | `update.callback_query`: present exactly for a callback-query update, and then it is that query; also read at line 117 |
| `Telegram.Truthy` | telegram/ext/commandhandler.py:111 | Python truthiness of a filter result, also used at line 214: a boolean is itself, and a dict is true exactly when it is non-empty |
| `Telegram.CallbackContext.Set` | telegram/ext/commandhandler.py:117 | setting one attribute changes that attribute and nothing else |
| `Telegram.CallbackContext.Merge` | telegram/ext/commandhandler.py:119 | `context.update(d)`: each key of `d` becomes an attribute and overrides an existing one; other attributes are unchanged |
| `CommandHandlers.LoweredCommands` | telegram/ext/commandhandler.py:73-76 | a single string becomes the one-element list of its lower-cased form; a list is lower-cased entry by entry, keeping length and order |
| `CommandHandlers.MatchesCommandPattern` | telegram/ext/commandhandler.py:78 | `re.match(r'^[\da-z_]{1,32}$', comm)` succeeds: the leading run of `[0-9a-z_]` has 1 to 32 characters and ends the string or is followed only by a final newline |
| `CommandHandlers.LowerAll` | telegram/ext/commandhandler.py:76 | the list comprehension lower-cases every command and keeps their order |
| `CommandHandlers.CommandPatternIff` | telegram/ext/commandhandler.py:78 | the validation regex accepts exactly 1 to 32 characters of `[0-9a-z_]`, optionally followed by one newline |
| `CommandHandlers.ValidateCommands` | telegram/ext/commandhandler.py:77-79 | the validating loop succeeds exactly when every command matches the regex |
| `CommandHandlers.NewCommandHandler` | telegram/ext/commandhandler.py:70-79 | construction succeeds exactly when every lower-cased command is valid, and then stores the lower-cased list; otherwise it raises ValueError |
| `CommandHandlers.ValidationExamples` | telegram/ext/commandhandler.py:73-79 | `Start` is lower-cased and accepted, `ab cd` is rejected, and `start\n` is accepted |
| `CommandHandlers.StartsWithCommandEntity` | telegram/ext/commandhandler.py:99-100 | the message has entities, and the first is a bot command at offset 0 |
| `CommandHandlers.CommandName` | telegram/ext/commandhandler.py:101 | `text[1:entities[0].length]`: the characters after the slash, up to the entity's end clamped to the text's length |
| `CommandHandlers.Tail` | telegram/ext/commandhandler.py:102 | the slice `[1:]`: a non-empty list is its first element followed by the result; an empty list gives an empty list |
| `CommandHandlers.FilterOutcome` | telegram/ext/commandhandler.py:110-114 | a truthy filter result gives `(args, filter_result)`; a falsy one gives `False`, which is distinct from `None` |
| `CommandHandlers.CheckCommandUpdate` | telegram/ext/commandhandler.py:96-114 | any outcome other than `None` needs an effective message whose first entity is a bot command at offset 0; a missing text raises TypeError; a match carries the truthy filter result and whitespace-free arguments; `False` means the filter was falsy |
| `CommandHandlers.BareCommand` | telegram/ext/commandhandler.py:103-108 | a command without `@` addresses this bot: it is recognised exactly when its lower-cased name is listed |
| `CommandHandlers.AddressedCommand` | telegram/ext/commandhandler.py:103-108 | for `name@target...`, the command is recognised exactly when the lower-cased name is listed and the segment after the first `@` equals the bot's username case-insensitively |
| `CommandHandlers.CommandArgs` | telegram/ext/commandhandler.py:101-102 | when the text splits into `first` followed by `args`, the arguments are `args`, whatever runs of whitespace separate the tokens |
| `CommandHandlers.BareCommandOutcome` | telegram/ext/commandhandler.py:99-114 | for a listed bare command whose text splits into `first` and `args`, the filter alone decides the outcome, and `args` are the arguments |
| `CommandHandlers.CollectCommandContext` | telegram/ext/commandhandler.py:116-119 | `context.args` becomes the arguments, then a dict filter result is merged in; nothing else is written (also `PrefixHandler`, lines 219-222) |
| `CommandHandlers.AsList` | telegram/ext/commandhandler.py:186-193 | a single string becomes a one-element lower-cased list; a list is kept as given |
| `CommandHandlers.CrossProduct` | telegram/ext/commandhandler.py:194 | the prefix-command list has length \|prefixes\| times \|commands\| |
| `CommandHandlers.CrossProductAt` | telegram/ext/commandhandler.py:194 | position `i*\|commands\|+j` holds `lower(prefix i) + lower(command j)`: prefixes outer, commands inner |
| `CommandHandlers.CrossProductMembers` | telegram/ext/commandhandler.py:194 | a word is listed exactly when it is some lower-cased prefix followed by some lower-cased command |
| `CommandHandlers.CrossProductLowerCase` | telegram/ext/commandhandler.py:194 | every entry of the prefix-command list is already lower-case |
| `CommandHandlers.NewPrefixHandler` | telegram/ext/commandhandler.py:178-194 | construction never raises (only `nocommand` is validated); the command list is the cross product of the prefix and command lists; a single prefix string with a single command string gives exactly `[lower(prefix + command)]` |
| `CommandHandlers.CheckPrefixUpdate` | telegram/ext/commandhandler.py:206-217 | any outcome other than `None` needs a non-empty text; a recognised word is a listed lower-cased first token; a match carries the remaining tokens and the truthy filter result; `False` means the filter was falsy |
| `CommandHandlers.PrefixWords` | telegram/ext/commandhandler.py:210-215 | on a text with tokens, recognition is membership of the lower-cased first token, and the arguments are the other tokens |
| `CommandHandlers.PrefixIndexError` | telegram/ext/commandhandler.py:209-211 | the handler raises IndexError exactly on a non-empty, whitespace-only text |
| `CommandHandlers.PrefixRecognition` | telegram/ext/commandhandler.py:206-217 | a text that splits into `first` and `args` (any whitespace between them) is recognised exactly when lower(first) is some lower-cased prefix followed by some lower-cased command; the arguments are then `args` |
| `CommandExamples.BareStart` | telegram/ext/commandhandler.py:96-114 | `/start` matches `start` with no arguments |
| `CommandExamples.AddressedStart` | telegram/ext/commandhandler.py:103-108 | `/start@botname` matches when the bot is `botname` |
| `CommandExamples.OtherBotStart` | telegram/ext/commandhandler.py:103-108 | `/start@othername` is not matched |
| `CommandExamples.StartCommand` | telegram/ext/commandhandler.py:99-114 | any text whose command entity covers `/start` or `/start@botname`, and whose tokens are `first` and `args`, matches the `start` handler with `args` |
| `CommandExamples.ThreeWords` | telegram/ext/commandhandler.py:102 | three tokens separated by non-empty runs of whitespace split to those three tokens |
| `CommandExamples.StartWithArgs` | telegram/ext/commandhandler.py:101-102 | `/start hello world` matches with arguments `hello` and `world` |
| `CommandExamples.StartWithMixedWhitespace` | telegram/ext/commandhandler.py:101-102 | `/start<tab>hello<newline>  world` matches with the same arguments `hello` and `world` |
| `CommandExamples.VetoedCommand` | telegram/ext/commandhandler.py:110-114 | a vetoing filter gives `False`, not `None` |
| `CommandExamples.BangHashTestCommands` | telegram/ext/commandhandler.py:194 | prefixes `!`, `#` with command `test` give `["!test", "#test"]` |
| `CommandExamples.PrefixTest` | telegram/ext/commandhandler.py:206-217 | `!test` and `#test` match; `test` and `!help` do not |
| `InlineQueryHandlers.NewInlineQueryHandler` | telegram/ext/inlinequeryhandler.py:53-61 | a string pattern is compiled once, and a compile error propagates; a compiled pattern or None is stored unchanged |
| `InlineQueryHandlers.CheckInlineQuery` | telegram/ext/inlinequeryhandler.py:63-82 | no inline query gives `None`; with no pattern every inline query gives `True`, even an empty one; with a pattern an empty query gives `None`, and otherwise the result is `re.match`'s match or `None` |
| `InlineQueryHandlers.AnchoredResult` | telegram/ext/inlinequeryhandler.py:78-80 | with an anchored matcher, a match spans a prefix of a non-empty query |
| `InlineQueryHandlers.CollectInlineQueryContext` | telegram/ext/inlinequeryhandler.py:84-86 | with a pattern, `context.matches` becomes `[match]`; without one the context is untouched |
| `InlineQueryHandlers.CheckFeedsCollect` | telegram/ext/inlinequeryhandler.py:75-86 | an accepted update carries a match exactly when a pattern is configured, as collect_additional_context expects |
| `InlineActionHandlers.NewInlineActionHandler` | telegram/flow/inlineactionhandler.py:82-96 | the handler's action id is `get_action_id(action)`, fixed at construction |
| `InlineActionHandlers.CallbackData` | telegram/flow/inlineactionhandler.py:108-109 | callback data is present only for a callback query with non-empty data |
| `InlineActionHandlers.CheckInlineAction` | telegram/flow/inlineactionhandler.py:98-112 | no callback query, or empty data, gives `None`; otherwise the result is `True` exactly when `peek_action` of the full data is the handler's action id |
| `InlineActionHandlers.CheckIgnoresBoundRecords` | telegram/flow/inlineactionhandler.py:108-112 | the check depends on `peek_action` only, never on the bound records |
| `InlineActionHandlers.CollectInlineActionContext` | telegram/flow/inlineactionhandler.py:114-119 | `view_model` becomes the model data of the record bound to (chat id, full data); a missing chat or record raises AttributeError and writes nothing |

## Left out

- Dispatcher, the `Handler` base class, user callbacks, `Bot` and the update and job queues: not part of this model. The handlers are evaluated one at a time, with no concurrency.
- Filters algebra: `Filters.update.messages & filters` at telegram/ext/commandhandler.py:81-84 is taken as given. Each handler holds the combined filter as a function from update to `False`/`True`/dict. A filter returning `None` is its `False`.
- `re.compile` and `re.match` for the inline query pattern: an external library, given as functions. `Anchored` states what the handler relies on.
- The session registry (`peek_action`, `lookup_chat_bound_callback`) and `get_action_id`: external, given as functions.
- The `isinstance(update, Update)` guards: the model's input is always an update.
- `Telegram.EffectiveMessage`: the model's `Update` carries one payload. It does not treat a callback query's attached message as the update's message. `Update`'s own source is not part of this model. The library's `Update.effective_message` also returns the message a callback query is attached to, so on such an update the handlers behave differently:
  - Take an attached message that has text and starts with a bot-command entity, or, for `PrefixHandler`, whose first word is listed. The library reaches the filter. The default `Filters.update.messages` is falsy there, so the library returns `False` (`Vetoed`). `CheckCommandUpdate` and `CheckPrefixUpdate` return `None` (`NoMatch`) instead. Either way the callback does not run.
  - Take an attached message with non-empty text made only of whitespace. The library's `PrefixHandler.check_update` raises IndexError (telegram/ext/commandhandler.py:209-211). `CheckPrefixUpdate` returns `None` (`NoMatch`).
  - Take an attached message with a bot-command entity at offset 0 and no text. The library's `CommandHandler.check_update` raises TypeError when it slices the missing text (telegram/ext/commandhandler.py:101). `CheckCommandUpdate` returns `None` (`NoMatch`).
- `PyStr.Lower`: lower-cases ASCII letters only. Python's full Unicode case mapping is not modelled.
- `CommandHandlers.MatchesCommandPattern`: `\d` is taken as ASCII digits. Python 3's `\d` also accepts other Unicode decimal digits.
- Message entity offsets and lengths count UTF-16 code units on Telegram's side. The model indexes characters directly.
- `InlineQueryHandlers.CheckInlineQuery`: regex matches other than through the injected matcher (groups, `groupdict`) are not modelled.

=== FILE: commandhandler.dfy ===
/**
 * Slash commands (`CommandHandler`) and prefix commands (`PrefixHandler`):
 * construction of the command lists, recognition of an update, the
 * three-way outcome of the filter and the context the handlers fill in.
 */
module CommandHandlers {
  import opened Wrappers
  import opened PyStr
  import opened Telegram

  // ---------------------------------------------------------------------
  // Construction

  /** A constructor argument that is either one string or a list of strings. */
  datatype StrOrList = Single(s: string) | Many(items: seq<string>)

  function LowerAll(xs: seq<string>): (r: seq<string>)
    ensures |r| == |xs|
    ensures forall i :: 0 <= i < |xs| ==> r[i] == Lower(xs[i])
  {
    seq(|xs|, i requires 0 <= i < |xs| => Lower(xs[i]))
  }

  /** The command list `CommandHandler` builds: every entry lower-cased. */
  function LoweredCommands(arg: StrOrList): (r: seq<string>)
    ensures arg.Single? ==> r == [Lower(arg.s)]
    ensures arg.Many? ==> |r| == |arg.items| && forall i :: 0 <= i < |r| ==> r[i] == Lower(arg.items[i])
  {
    match arg
    case Single(s) => [Lower(s)]
    case Many(xs) => LowerAll(xs)
  }

  /** A character of the class `[\da-z_]` (ASCII digits). */
  predicate IsCommandChar(c: char)
  {
    '0' <= c <= '9' || 'a' <= c <= 'z' || c == '_'
  }

  /** Length of the leading run of command characters. */
  function CommandRun(s: string): (n: nat)
    ensures n <= |s|
    ensures forall i :: 0 <= i < n ==> IsCommandChar(s[i])
    ensures n < |s| ==> !IsCommandChar(s[n])
  {
    if |s| == 0 || !IsCommandChar(s[0]) then 0 else 1 + CommandRun(s[1..])
  }

  /**
   * `re.match(r'^[\da-z_]{1,32}$', s)` succeeds. The greedy repetition
   * takes the whole leading run (at most 32 characters) and Python's `$`
   * then matches at the end of the string or just before a final newline.
   */
  predicate MatchesCommandPattern(s: string)
  {
    var n := CommandRun(s);
    1 <= n <= 32 && (n == |s| || (n + 1 == |s| && s[n] == '\n'))
  }

  /** A bot command name as Telegram allows it: 1 to 32 of `[0-9a-z_]`. */
  predicate IsCommandName(w: string)
  {
    1 <= |w| <= 32 && forall i :: 0 <= i < |w| ==> IsCommandChar(w[i])
  }

  lemma {:induction false} CommandRunOfName(w: string, rest: string)
    requires forall i :: 0 <= i < |w| ==> IsCommandChar(w[i])
    requires |rest| > 0 ==> !IsCommandChar(rest[0])
    ensures CommandRun(w + rest) == |w|
    decreases |w|
  {
    if |w| == 0 {
      assert w + rest == rest;
    } else {
      assert (w + rest)[0] == w[0];
      assert (w + rest)[1..] == w[1..] + rest;
      CommandRunOfName(w[1..], rest);
    }
  }

  /**
   * The validation regex accepts exactly a command name, or a command name
   * followed by one newline character.
   */
  lemma CommandPatternIff(s: string)
    ensures MatchesCommandPattern(s) <==>
      IsCommandName(s) || (|s| >= 2 && s[|s| - 1] == '\n' && IsCommandName(s[..|s| - 1]))
  {
    var n := CommandRun(s);
    if IsCommandName(s) {
      CommandRunOfName(s, "");
      assert s + "" == s;
    } else if |s| >= 2 && s[|s| - 1] == '\n' && IsCommandName(s[..|s| - 1]) {
      CommandRunOfName(s[..|s| - 1], "\n");
      assert s[..|s| - 1] + "\n" == s;
    }
    if MatchesCommandPattern(s) && n + 1 == |s| {
      assert s[..|s| - 1] == s[..n];
    }
  }

  /** The validating loop of `CommandHandler.__init__`: stops at the first invalid command. */
  method ValidateCommands(commands: seq<string>) returns (ok: bool)
    ensures ok <==> forall i :: 0 <= i < |commands| ==> MatchesCommandPattern(commands[i])
  {
    var i := 0;
    while i < |commands|
      invariant 0 <= i <= |commands|
      invariant forall j :: 0 <= j < i ==> MatchesCommandPattern(commands[j])
    {
      if !MatchesCommandPattern(commands[i]) {
        return false;
      }
      i := i + 1;
    }
    return true;
  }

  /** A handler for slash commands; `filters` is the combined filter the constructor stores. */
  datatype CommandHandler = CommandHandler(commands: seq<string>, filters: Filter)

  /** `CommandHandler.__init__`: lower-case the commands, then reject any invalid one. */
  method NewCommandHandler(command: StrOrList, filters: Filter) returns (r: Result<CommandHandler, PyError>)
    ensures r.Success? <==> forall c :: c in LoweredCommands(command) ==> MatchesCommandPattern(c)
    ensures r.Success? ==> r.value.commands == LoweredCommands(command) && r.value.filters == filters
    ensures r.Failure? ==> r.error == ValueError
  {
    var commands := LoweredCommands(command);
    var ok := ValidateCommands(commands);
    if ok {
      r := Success(CommandHandler(commands, filters));
    } else {
      r := Failure(ValueError);
    }
  }

  /** Upper-case input is accepted (it is lower-cased first); a space is not; a final newline slips through. */
  lemma ValidationExamples()
    ensures LoweredCommands(Single("Start")) == ["start"]
    ensures MatchesCommandPattern("start")
    ensures !MatchesCommandPattern("ab cd")
    ensures MatchesCommandPattern("start\n")
  {
    assert Lower("Start") == "start";
    CommandPatternIff("start");
    CommandPatternIff("ab cd");
    assert !IsCommandChar("ab cd"[2]);
    CommandPatternIff("start\n");
    assert "start\n"[..5] == "start";
  }

  // ---------------------------------------------------------------------
  // What the command handlers return from check_update

  /**
   * `None` is NoMatch, `False` is Vetoed (the command matched but the filter
   * said no) and `(args, filter_result)` is Matched; Raised is an exception.
   */
  datatype CommandCheck =
    | NoMatch
    | Vetoed
    | Matched(args: seq<string>, filterResult: FilterResult)
    | Raised(error: PyError)

  predicate Recognized(r: CommandCheck)
  {
    r.Matched? || r.Vetoed?
  }

  /** `xs[1:]`. */
  function Tail(xs: seq<string>): (r: seq<string>)
    ensures |xs| > 0 ==> [xs[0]] + r == xs
    ensures |xs| == 0 ==> r == []
  {
    if |xs| == 0 then [] else xs[1..]
  }

  /** The message's first entity is a bot command at offset 0. */
  predicate StartsWithCommandEntity(m: Message)
  {
    |m.entities| > 0 && m.entities[0].kind == BOT_COMMAND && m.entities[0].offset == 0
  }

  /** `text[1:entities[0].length]`: the command without its slash, possibly with `@botname`. */
  function CommandName(m: Message): (name: string)
    requires StartsWithCommandEntity(m) && m.text.Some?
    ensures |name| == if m.entities[0].length <= 1 || |m.text.value| <= 1 then 0
                      else (if m.entities[0].length <= |m.text.value| then m.entities[0].length else |m.text.value|) - 1
    ensures forall k :: 0 <= k < |name| ==> name[k] == m.text.value[k + 1]
  {
    Slice(m.text.value, 1, m.entities[0].length)
  }

  /** The filter's verdict on an update whose command shape matched. */
  function FilterOutcome(args: seq<string>, fr: FilterResult): (r: CommandCheck)
    ensures Recognized(r)
    ensures r.Matched? <==> Truthy(fr)
    ensures r.Matched? ==> r.args == args && r.filterResult == fr
  {
    if Truthy(fr) then Matched(args, fr) else Vetoed
  }

  /** `CommandHandler.check_update`. */
  function CheckCommandUpdate(h: CommandHandler, u: Update): (r: CommandCheck)
    ensures r != NoMatch ==>
      EffectiveMessage(u).Some? && StartsWithCommandEntity(EffectiveMessage(u).value)
    ensures r.Raised? <==>
      EffectiveMessage(u).Some? && StartsWithCommandEntity(EffectiveMessage(u).value)
      && EffectiveMessage(u).value.text.None?
    ensures r.Raised? ==> r.error == TypeError
    ensures r.Matched? ==> Truthy(r.filterResult) && r.filterResult == h.filters(u)
    ensures r.Matched? ==> forall k :: 0 <= k < |r.args| ==> IsToken(r.args[k])
    ensures r.Vetoed? ==> !Truthy(h.filters(u))
  {
    match EffectiveMessage(u)
    case None => NoMatch
    case Some(m) =>
      if !StartsWithCommandEntity(m) then NoMatch
      else if m.text.None? then Raised(TypeError)
      else
        var text := m.text.value;
        var args := Tail(Split(text));
        var parts := SplitOn(CommandName(m), '@') + [m.bot.username];
        if !(Lower(parts[0]) in h.commands && Lower(parts[1]) == Lower(m.bot.username)) then NoMatch
        else FilterOutcome(args, h.filters(u))
  }

  /** A message whose text exists and starts with a bot-command entity. */
  predicate IsCommandMessage(u: Update)
  {
    EffectiveMessage(u).Some? && StartsWithCommandEntity(EffectiveMessage(u).value)
    && EffectiveMessage(u).value.text.Some?
  }

  /** A bare command (no `@`) addresses this bot: it is recognised exactly when its name is listed. */
  lemma BareCommand(h: CommandHandler, u: Update)
    requires IsCommandMessage(u)
    requires '@' !in CommandName(EffectiveMessage(u).value)
    ensures Recognized(CheckCommandUpdate(h, u)) <==>
      Lower(CommandName(EffectiveMessage(u).value)) in h.commands
  {
    SplitOnAbsent(CommandName(EffectiveMessage(u).value), '@');
  }

  /**
   * A command `name@target...` is recognised exactly when the name before
   * the first `@` is listed and the segment after it names this bot, both
   * compared case-insensitively.
   */
  lemma AddressedCommand(h: CommandHandler, u: Update, name: string, target: string, tail: string)
    requires IsCommandMessage(u)
    requires CommandName(EffectiveMessage(u).value) == name + "@" + target + tail
    requires '@' !in name && '@' !in target
    requires tail == "" || tail[0] == '@'
    ensures Recognized(CheckCommandUpdate(h, u)) <==>
      Lower(name) in h.commands && Lower(target) == Lower(EffectiveMessage(u).value.bot.username)
  {
    assert name + "@" + target + tail == name + ['@'] + (target + tail);
    SplitOnFirst(name, '@', target + tail);
    if tail == "" {
      assert target + tail == target;
      SplitOnAbsent(target, '@');
    } else {
      assert target + tail == target + ['@'] + tail[1..];
      SplitOnFirst(target, '@', tail[1..]);
    }
  }

  /**
   * The arguments are the tokens of the text after the first one, whatever
   * run of whitespace separates them.
   */
  lemma CommandArgs(h: CommandHandler, u: Update, first: string, args: seq<string>)
    requires IsCommandMessage(u)
    requires Split(EffectiveMessage(u).value.text.value) == [first] + args
    ensures CheckCommandUpdate(h, u).Matched? ==> CheckCommandUpdate(h, u).args == args
  {
    assert ([first] + args)[1..] == args;
  }

  /**
   * The whole outcome for a bare command `/name arg1 arg2 ...` whose name is
   * listed: the filter alone decides between Matched with those arguments
   * and Vetoed.
   */
  lemma {:induction false} BareCommandOutcome(h: CommandHandler, u: Update, first: string, args: seq<string>)
    requires IsCommandMessage(u)
    requires '@' !in CommandName(EffectiveMessage(u).value)
    requires Lower(CommandName(EffectiveMessage(u).value)) in h.commands
    requires Split(EffectiveMessage(u).value.text.value) == [first] + args
    ensures CheckCommandUpdate(h, u) == FilterOutcome(args, h.filters(u))
  {
    BareCommand(h, u);
    CommandArgs(h, u, first, args);
  }

  // ---------------------------------------------------------------------
  // Filling in the context (shared by both command handlers)

  /**
   * `collect_additional_context`: `context.args` becomes the arguments,
   * then a dict-valued filter result is merged into the context.
   */
  method CollectCommandContext(context: CallbackContext, check: CommandCheck)
    requires check.Matched?
    modifies context
    ensures context.attrs ==
      old(context.attrs)["args" := Tokens(check.args)]
      + (if check.filterResult.FilterDict? then check.filterResult.data else map[])
    ensures check.filterResult.FilterBool? ==> context.attrs == old(context.attrs)["args" := Tokens(check.args)]
    ensures !(check.filterResult.FilterDict? && "args" in check.filterResult.data) ==>
      context.attrs["args"] == Tokens(check.args)
  {
    context.Set("args", Tokens(check.args));
    if check.filterResult.FilterDict? {
      context.Merge(check.filterResult.data);
    }
  }

  // ---------------------------------------------------------------------
  // Prefix commands

  /** A handler for `prefix + command` words; `commands` holds every combination. */
  datatype PrefixHandler = PrefixHandler(prefixes: seq<string>, commands: seq<string>, filters: Filter)

  /** A single string is lower-cased into a one-element list; a list is kept as given. */
  function AsList(arg: StrOrList): (r: seq<string>)
    ensures arg.Single? ==> r == [Lower(arg.s)]
    ensures arg.Many? ==> r == arg.items
  {
    match arg
    case Single(s) => [Lower(s)]
    case Many(xs) => xs
  }

  /** `[x.lower() + y.lower() for x in prefixes for y in commands]`. */
  function CrossProduct(prefixes: seq<string>, commands: seq<string>): (r: seq<string>)
    ensures |r| == |prefixes| * |commands|
  {
    if |prefixes| == 0 then []
    else
      assert |prefixes| * |commands| == |commands| + (|prefixes| - 1) * |commands|;
      seq(|commands|, j requires 0 <= j < |commands| => Lower(prefixes[0]) + Lower(commands[j]))
      + CrossProduct(prefixes[1..], commands)
  }

  /** Prefix `i` (outer loop) and command `j` (inner loop) sit at position `i * |commands| + j`. */
  lemma {:induction false} CrossProductAt(prefixes: seq<string>, commands: seq<string>, i: nat, j: nat)
    requires i < |prefixes| && j < |commands|
    ensures i * |commands| + j < |CrossProduct(prefixes, commands)|
    ensures CrossProduct(prefixes, commands)[i * |commands| + j] == Lower(prefixes[i]) + Lower(commands[j])
    decreases i
  {
    var n := |commands|;
    var head := seq(n, k requires 0 <= k < n => Lower(prefixes[0]) + Lower(commands[k]));
    assert CrossProduct(prefixes, commands) == head + CrossProduct(prefixes[1..], commands);
    if i > 0 {
      CrossProductAt(prefixes[1..], commands, i - 1, j);
      assert i * n == (i - 1) * n + n;
      assert prefixes[1..][i - 1] == prefixes[i];
    }
  }

  /** A word is in the cross product exactly when it is some lower-cased prefix followed by some lower-cased command. */
  lemma {:induction false} CrossProductMembers(prefixes: seq<string>, commands: seq<string>, w: string)
    ensures w in CrossProduct(prefixes, commands) <==>
      exists i, j :: 0 <= i < |prefixes| && 0 <= j < |commands| && w == Lower(prefixes[i]) + Lower(commands[j])
    decreases |prefixes|
  {
    if |prefixes| > 0 {
      CrossProductMembers(prefixes[1..], commands, w);
      var head := seq(|commands|, j requires 0 <= j < |commands| => Lower(prefixes[0]) + Lower(commands[j]));
      assert CrossProduct(prefixes, commands) == head + CrossProduct(prefixes[1..], commands);
      if w in CrossProduct(prefixes, commands) {
        if w in head {
          var j :| 0 <= j < |commands| && head[j] == w;
          assert w == Lower(prefixes[0]) + Lower(commands[j]);
        } else {
          var i, j :| 0 <= i < |prefixes[1..]| && 0 <= j < |commands| && w == Lower(prefixes[1..][i]) + Lower(commands[j]);
          assert prefixes[1..][i] == prefixes[i + 1];
        }
      }
      if exists i, j :: 0 <= i < |prefixes| && 0 <= j < |commands| && w == Lower(prefixes[i]) + Lower(commands[j]) {
        var i, j :| 0 <= i < |prefixes| && 0 <= j < |commands| && w == Lower(prefixes[i]) + Lower(commands[j]);
        if i == 0 {
          assert head[j] == w;
        } else {
          assert prefixes[1..][i - 1] == prefixes[i];
        }
      }
    }
  }

  /**
   * Every entry of the prefix-command list is already lower-case, so the
   * lower-cased first word of a text can equal it.
   */
  lemma CrossProductLowerCase(prefixes: seq<string>, commands: seq<string>)
    ensures forall w :: w in CrossProduct(prefixes, commands) ==> Lower(w) == w
  {
    forall w | w in CrossProduct(prefixes, commands)
      ensures Lower(w) == w
    {
      CrossProductMembers(prefixes, commands, w);
      var i, j :| 0 <= i < |prefixes| && 0 <= j < |commands| && w == Lower(prefixes[i]) + Lower(commands[j]);
      LowerConcat(Lower(prefixes[i]), Lower(commands[j]));
      LowerIdempotent(prefixes[i]);
      LowerIdempotent(commands[j]);
    }
  }

  /** The placeholder command `nocommand` passes the base constructor's validation. */
  lemma PlaceholderIsValid()
    ensures forall c :: c in LoweredCommands(Single("nocommand")) ==> MatchesCommandPattern(c)
  {
    assert Lower("nocommand") == "nocommand";
    CommandPatternIff("nocommand");
  }

  /**
   * `PrefixHandler.__init__`. The base constructor runs with the placeholder
   * command `nocommand`, which always passes validation; the prefix commands
   * themselves are never validated, so construction never raises.
   */
  method NewPrefixHandler(prefix: StrOrList, command: StrOrList, filters: Filter) returns (h: PrefixHandler)
    ensures h.prefixes == AsList(prefix)
    ensures h.commands == CrossProduct(AsList(prefix), AsList(command))
    ensures |h.commands| == |AsList(prefix)| * |AsList(command)|
    ensures h.filters == filters
    ensures prefix.Single? && command.Single? ==> h.commands == [Lower(prefix.s + command.s)]
  {
    PlaceholderIsValid();
    var base := NewCommandHandler(Single("nocommand"), filters);
    var prefixes := AsList(prefix);
    var commands := AsList(command);
    h := PrefixHandler(prefixes, CrossProduct(prefixes, commands), base.value.filters);
    if prefix.Single? && command.Single? {
      CrossProductAt(prefixes, commands, 0, 0);
      LowerIdempotent(prefix.s);
      LowerIdempotent(command.s);
      LowerConcat(prefix.s, command.s);
    }
  }

  /** `PrefixHandler.check_update`. */
  function CheckPrefixUpdate(h: PrefixHandler, u: Update): (r: CommandCheck)
    ensures r != NoMatch ==>
      EffectiveMessage(u).Some? && EffectiveMessage(u).value.text.Some? && EffectiveMessage(u).value.text.value != ""
    ensures r.Raised? ==> r.error == IndexError
    ensures Recognized(r) ==>
      (|Split(EffectiveMessage(u).value.text.value)| > 0
       && Lower(Split(EffectiveMessage(u).value.text.value)[0]) in h.commands)
    ensures r.Matched? ==> Truthy(r.filterResult) && r.filterResult == h.filters(u)
    ensures r.Matched? ==> [Split(EffectiveMessage(u).value.text.value)[0]] + r.args == Split(EffectiveMessage(u).value.text.value)
    ensures r.Vetoed? ==> !Truthy(h.filters(u))
  {
    match EffectiveMessage(u)
    case None => NoMatch
    case Some(m) =>
      if m.text.None? || m.text.value == "" then NoMatch
      else
        var words := Split(m.text.value);
        if |words| == 0 then Raised(IndexError)
        else if Lower(words[0]) !in h.commands then NoMatch
        else FilterOutcome(words[1..], h.filters(u))
  }

  /** The update has an effective message whose text is present and non-empty. */
  predicate HasText(u: Update)
  {
    EffectiveMessage(u).Some? && EffectiveMessage(u).value.text.Some? && EffectiveMessage(u).value.text.value != ""
  }

  /** A non-empty text made only of whitespace makes the handler raise IndexError. */
  lemma PrefixIndexError(h: PrefixHandler, u: Update)
    ensures CheckPrefixUpdate(h, u).Raised? <==> HasText(u) && AllSpace(EffectiveMessage(u).value.text.value)
  {
    if HasText(u) {
      SplitEmptyIff(EffectiveMessage(u).value.text.value);
    }
  }

  /**
   * For a text whose tokens are `first arg1 arg2 ...` (separated by any
   * whitespace), the handler built from prefixes and commands recognises it
   * exactly when the lower-cased first word is some prefix followed by some
   * command, and then the arguments are the rest.
   */
  lemma {:induction false} PrefixRecognition(h: PrefixHandler, prefixes: seq<string>, commands: seq<string>,
                          u: Update, first: string, args: seq<string>)
    requires h.commands == CrossProduct(prefixes, commands)
    requires EffectiveMessage(u).Some? && EffectiveMessage(u).value.text.Some?
    requires Split(EffectiveMessage(u).value.text.value) == [first] + args
    ensures Recognized(CheckPrefixUpdate(h, u)) <==>
      exists i, j :: 0 <= i < |prefixes| && 0 <= j < |commands|
        && Lower(first) == Lower(prefixes[i]) + Lower(commands[j])
    ensures CheckPrefixUpdate(h, u).Matched? ==> CheckPrefixUpdate(h, u).args == args
  {
    var text := EffectiveMessage(u).value.text.value;
    assert HasText(u);
    assert Split(text)[0] == first && Split(text)[1..] == args;
    assert Recognized(CheckPrefixUpdate(h, u)) <==> Lower(first) in h.commands by {
      PrefixWords(h, u);
    }
    assert CheckPrefixUpdate(h, u).Matched? ==> CheckPrefixUpdate(h, u).args == args by {
      PrefixWords(h, u);
    }
    CrossProductMembers(prefixes, commands, Lower(first));
  }

  /**
   * On a text with at least one token, the handler recognises it exactly
   * when the lower-cased first token is listed, and the arguments are the
   * remaining tokens.
   */
  lemma PrefixWords(h: PrefixHandler, u: Update)
    requires HasText(u) && |Split(EffectiveMessage(u).value.text.value)| > 0
    ensures var words := Split(EffectiveMessage(u).value.text.value);
      && (Recognized(CheckPrefixUpdate(h, u)) <==> Lower(words[0]) in h.commands)
      && (CheckPrefixUpdate(h, u).Matched? ==> CheckPrefixUpdate(h, u).args == words[1..])
  {
  }
}

/** Worked examples of the two command handlers on concrete updates. */
module CommandExamples {
  import opened Wrappers
  import opened PyStr
  import opened Telegram
  import opened CommandHandlers

  /** A new message from a chat, addressed to the bot `botname`. */
  function TextUpdate(text: string, entities: seq<MessageEntity>): Update
  {
    Update(1, MessagePayload(NewMessage, Message(Chat(7), Some(text), entities, Bot("botname"))))
  }

  function CommandUpdate(text: string, length: nat): Update
  {
    TextUpdate(text, [MessageEntity(BOT_COMMAND, 0, length)])
  }

  lemma PrintableToken(t: string)
    requires |t| > 0 && forall i :: 0 <= i < |t| ==> '!' <= t[i] <= '~'
    ensures IsToken(t)
  {
  }

  /** A printable word without spaces splits to itself. */
  lemma SingleWord(t: string)
    requires |t| > 0 && forall i :: 0 <= i < |t| ==> '!' <= t[i] <= '~'
    ensures Split(t) == [t]
  {
    PrintableToken(t);
    SplitToken(t);
  }

  /** `/start` matches with no arguments. */
  lemma {:induction false} BareStart(f: Filter)
    requires forall u :: f(u) == FilterBool(true)
    ensures CheckCommandUpdate(CommandHandler(["start"], f), CommandUpdate("/start", 6)) == Matched([], FilterBool(true))
  {
    SingleWord("/start");
    StartCommand(f, "/start", 6, "/start", []);
  }

  /** `/start@botname` addresses this bot and matches. */
  lemma {:induction false} AddressedStart(f: Filter)
    requires forall u :: f(u) == FilterBool(true)
    ensures CheckCommandUpdate(CommandHandler(["start"], f), CommandUpdate("/start@botname", 14)) == Matched([], FilterBool(true))
  {
    SingleWord("/start@botname");
    StartCommand(f, "/start@botname", 14, "/start@botname", []);
  }

  /** `/start@othername` is addressed to another bot: no match. */
  lemma {:induction false} OtherBotStart(f: Filter)
    ensures CheckCommandUpdate(CommandHandler(["start"], f), CommandUpdate("/start@othername", 16)) == NoMatch
  {
    var u := CommandUpdate("/start@othername", 16);
    var h := CommandHandler(["start"], f);
    assert IsCommandMessage(u);
    assert CommandName(EffectiveMessage(u).value) == "start" + "@" + "othername" + "";
    assert Lower("othername") == "othername" && Lower("botname") == "botname";
    AddressedCommand(h, u, "start", "othername", "");
    assert !Recognized(CheckCommandUpdate(h, u));
  }

  /**
   * Any text whose command entity covers `/start` (alone, or followed by
   * `@botname`) and whose tokens are `first` then `args` matches the `start`
   * handler with those arguments when the filter passes.
   */
  lemma {:induction false} StartCommand(f: Filter, text: string, n: nat, first: string, args: seq<string>)
    requires forall u :: f(u) == FilterBool(true)
    requires n == 6 || n == 14
    requires |text| >= n && text[..n] == (if n == 6 then "/start" else "/start@botname")
    requires Split(text) == [first] + args
    ensures CheckCommandUpdate(CommandHandler(["start"], f), CommandUpdate(text, n)) == Matched(args, FilterBool(true))
  {
    var u := CommandUpdate(text, n);
    var h := CommandHandler(["start"], f);
    assert Lower("start") == "start" && Lower("botname") == "botname";
    if n == 6 {
      assert CommandName(EffectiveMessage(u).value) == "start";
      BareCommand(h, u);
    } else {
      assert CommandName(EffectiveMessage(u).value) == "start" + "@" + "botname" + "";
      AddressedCommand(h, u, "start", "botname", "");
    }
    CommandArgs(h, u, first, args);
    assert f(u) == FilterBool(true);
  }

  /** Three words separated by runs of whitespace split to those words. */
  lemma {:induction false} ThreeWords(a: string, s1: string, b: string, s2: string, c: string)
    requires IsToken(a) && IsToken(b) && IsToken(c)
    requires |s1| > 0 && AllSpace(s1) && |s2| > 0 && AllSpace(s2)
    ensures Split(a + s1 + b + s2 + c) == [a] + [b, c]
  {
    SplitToken(c);
    SplitAfterToken(b, s2, c);
    assert a + s1 + b + s2 + c == a + s1 + (b + s2 + c);
    SplitAfterToken(a, s1, b + s2 + c);
  }

  /** `/start hello world` splits to its three words. */
  lemma HelloWorldText()
    ensures Split("/start hello world") == ["/start"] + ["hello", "world"]
  {
    PrintableToken("/start");
    PrintableToken("hello");
    PrintableToken("world");
    assert AllSpace(" ");
    assert "/start hello world" == "/start" + " " + "hello" + " " + "world";
    ThreeWords("/start", " ", "hello", " ", "world");
  }

  /** `/start\thello\n  world` splits to the same three words. */
  lemma MixedWhitespaceText()
    ensures Split("/start\thello\n  world") == ["/start"] + ["hello", "world"]
  {
    PrintableToken("/start");
    PrintableToken("hello");
    PrintableToken("world");
    assert AllSpace("\t") && AllSpace("\n  ");
    assert "/start\thello\n  world" == "/start" + "\t" + "hello" + "\n  " + "world";
    ThreeWords("/start", "\t", "hello", "\n  ", "world");
  }

  /** `/start hello world` matches with arguments `hello` and `world`. */
  lemma {:induction false} StartWithArgs(f: Filter)
    requires forall u :: f(u) == FilterBool(true)
    ensures CheckCommandUpdate(CommandHandler(["start"], f), CommandUpdate("/start hello world", 6))
      == Matched(["hello", "world"], FilterBool(true))
  {
    HelloWorldText();
    StartCommand(f, "/start hello world", 6, "/start", ["hello", "world"]);
  }

  /** A tab, a newline and a run of spaces separate arguments just as one space does. */
  lemma {:induction false} StartWithMixedWhitespace(f: Filter)
    requires forall u :: f(u) == FilterBool(true)
    ensures CheckCommandUpdate(CommandHandler(["start"], f), CommandUpdate("/start\thello\n  world", 6))
      == Matched(["hello", "world"], FilterBool(true))
  {
    MixedWhitespaceText();
    StartCommand(f, "/start\thello\n  world", 6, "/start", ["hello", "world"]);
  }

  /** A vetoing filter yields the distinct outcome Vetoed, not NoMatch. */
  lemma {:induction false} VetoedCommand(f: Filter)
    requires forall u :: f(u) == FilterBool(false)
    ensures CheckCommandUpdate(CommandHandler(["start"], f), CommandUpdate("/start", 6)) == Vetoed
  {
    var u := CommandUpdate("/start", 6);
    var h := CommandHandler(["start"], f);
    assert IsCommandMessage(u);
    assert CommandName(EffectiveMessage(u).value) == "start";
    assert Lower("start") == "start";
    BareCommand(h, u);
    assert Recognized(CheckCommandUpdate(h, u));
    assert f(u) == FilterBool(false);
  }

  /** The handler for prefixes `!` and `#` and the command `test`. */
  function BangHashTest(f: Filter): PrefixHandler
  {
    PrefixHandler(["!", "#"], CrossProduct(["!", "#"], ["test"]), f)
  }

  lemma BangHashTestCommands()
    ensures CrossProduct(["!", "#"], ["test"]) == ["!test", "#test"]
  {
    var cs := CrossProduct(["!", "#"], ["test"]);
    assert Lower("!") == "!" && Lower("#") == "#" && Lower("test") == "test";
    CrossProductAt(["!", "#"], ["test"], 0, 0);
    CrossProductAt(["!", "#"], ["test"], 1, 0);
    assert |cs| == 2;
    assert cs[0] == "!" + "test" && cs[1] == "#" + "test";
    assert "!" + "test" == "!test" && "#" + "test" == "#test";
  }

  /** A single word splits to itself and lower-cases to itself. */
  lemma PlainWord(w: string)
    requires |w| > 0 && forall i :: 0 <= i < |w| ==> '!' <= w[i] <= '~' && !('A' <= w[i] <= 'Z')
    ensures Split(w) == [w] && Lower(w) == w
  {
    PrintableToken(w);
    SplitToken(w);
  }

  /** `!test` and `#test` match; `test` (no prefix) and `!help` (another command) do not. */
  lemma {:induction false} PrefixTest(f: Filter, text: string)
    requires forall u :: f(u) == FilterBool(true)
    requires text in ["!test", "#test", "test", "!help"]
    ensures CheckPrefixUpdate(BangHashTest(f), TextUpdate(text, [])) ==
      if text in ["!test", "#test"] then Matched([], FilterBool(true)) else NoMatch
  {
    PlainWord(text);
    BangHashTestCommands();
    var u := TextUpdate(text, []);
    PrefixWords(BangHashTest(f), u);
    assert f(u) == FilterBool(true);
  }
}

=== FILE: inlineactionhandler.dfy ===
/**
 * `InlineActionHandler`: routes a callback query whose data the session
 * registry resolves to this handler's action, and binds the session
 * record's model data as `view_model`.
 */
module InlineActionHandlers {
  import opened Wrappers
  import opened Telegram

  type ActionId = string

  /** A record the registry keeps for a callback bound to a chat. */
  datatype SessionRecord = SessionRecord(modelData: Value)

  /**
   * The session registry (`dispatcher.callback_manager`): `peek_action`
   * resolves callback data to an action without consuming it, and
   * `lookup_chat_bound_callback` finds the record bound to a chat and data.
   */
  datatype SessionRegistry = SessionRegistry(
    peekAction: string -> Option<ActionId>,
    lookupChatBoundCallback: (int, string) -> Option<SessionRecord>)

  datatype InlineActionHandler = InlineActionHandler(actionId: ActionId)

  /** `InlineActionHandler.__init__`: the action id is computed once, from the action. */
  function NewInlineActionHandler<A>(action: A, getActionId: A -> ActionId): (h: InlineActionHandler)
    ensures h.actionId == getActionId(action)
  {
    InlineActionHandler(getActionId(action))
  }

  /** The non-empty data of the update's callback query, if any. */
  function CallbackData(u: Update): (d: Option<string>)
    ensures d.Some? ==> d.value != ""
    ensures d.Some? <==> CallbackQueryOf(u).Some? && CallbackQueryOf(u).value.data.Some?
                         && CallbackQueryOf(u).value.data.value != ""
  {
    match CallbackQueryOf(u)
    case None => None
    case Some(q) => if q.data.Some? && q.data.value != "" then q.data else None
  }

  /**
   * `InlineActionHandler.check_update`: None without a callback query or
   * with empty data; otherwise whether the registry resolves the full data
   * string to this handler's action.
   */
  function CheckInlineAction(h: InlineActionHandler, u: Update, registry: SessionRegistry): (r: Option<bool>)
    ensures r.Some? <==> CallbackData(u).Some?
    ensures r == Some(true) <==>
      CallbackData(u).Some? && registry.peekAction(CallbackData(u).value) == Some(h.actionId)
  {
    match CallbackData(u)
    case None => None
    case Some(data) => Some(registry.peekAction(data) == Some(h.actionId))
  }

  /** check_update consults only `peek_action`: the bound records play no part. */
  lemma {:induction false} CheckIgnoresBoundRecords(h: InlineActionHandler, u: Update, r1: SessionRegistry, r2: SessionRegistry)
    requires forall s :: r1.peekAction(s) == r2.peekAction(s)
    ensures CheckInlineAction(h, u, r1) == CheckInlineAction(h, u, r2)
  {
    if CallbackData(u).Some? {
      assert r1.peekAction(CallbackData(u).value) == r2.peekAction(CallbackData(u).value);
    }
  }

  /**
   * `InlineActionHandler.collect_additional_context`: look up the record
   * bound to the effective chat's id and the full callback data, and set
   * `context.view_model` to its model data. A missing chat or a missing
   * record raises AttributeError, and then nothing is written.
   */
  method CollectInlineActionContext(h: InlineActionHandler, context: CallbackContext, u: Update,
                                    registry: SessionRegistry) returns (err: Option<PyError>)
    requires CheckInlineAction(h, u, registry) == Some(true)
    modifies context
    ensures err.None? <==>
      EffectiveChat(u).Some?
      && registry.lookupChatBoundCallback(EffectiveChat(u).value.id, CallbackData(u).value).Some?
    ensures err.Some? ==> err.value == AttributeError && context.attrs == old(context.attrs)
    ensures err.None? ==> context.attrs == old(context.attrs)["view_model" :=
      registry.lookupChatBoundCallback(EffectiveChat(u).value.id, CallbackData(u).value).value.modelData]
  {
    var chat := EffectiveChat(u);
    if chat.None? {
      return Some(AttributeError);
    }
    var data := CallbackQueryOf(u).value.data.value;
    var item := registry.lookupChatBoundCallback(chat.value.id, data);
    if item.None? {
      return Some(AttributeError);
    }
    context.Set("view_model", item.value.modelData);
    return None;
  }
}

=== FILE: inlinequeryhandler.dfy ===
/**
 * `InlineQueryHandler`: accepts inline queries, optionally gated by a
 * regular expression matched at the start of the query text.
 */
module InlineQueryHandlers {
  import opened Wrappers
  import opened Telegram

  /** A compiled regular expression. */
  datatype Pattern = Pattern(source: string, flags: nat)

  /**
   * The regular-expression library the handler calls: `re.compile`, which
   * may raise, and `re.match` with a compiled pattern.
   */
  datatype Regex = Regex(
    compile: string -> Result<Pattern, PyError>,
    matchStart: (Pattern, string) -> Option<Match>)

  /** `re.match` is anchored at the start: a match spans a prefix of the text. */
  ghost predicate Anchored(re: Regex)
  {
    forall p, s :: re.matchStart(p, s).Some? ==>
      re.matchStart(p, s).value.start == 0 && re.matchStart(p, s).value.end <= |s|
  }

  /** The `pattern` argument: absent, a string to compile, or an already compiled pattern. */
  datatype PatternArg = NoPattern | PatternString(source: string) | CompiledPattern(pattern: Pattern)

  datatype InlineQueryHandler = InlineQueryHandler(pattern: Option<Pattern>)

  /** `InlineQueryHandler.__init__`: a string is compiled once; anything else is stored unchanged. */
  function NewInlineQueryHandler(arg: PatternArg, re: Regex): (r: Result<InlineQueryHandler, PyError>)
    ensures arg.NoPattern? ==> r == Success(InlineQueryHandler(None))
    ensures arg.CompiledPattern? ==> r == Success(InlineQueryHandler(Some(arg.pattern)))
    ensures arg.PatternString? ==>
      && (r.Success? <==> re.compile(arg.source).Success?)
      && (r.Success? ==> r.value.pattern == Some(re.compile(arg.source).value))
      && (r.Failure? ==> r.error == re.compile(arg.source).error)
  {
    match arg
    case NoPattern => Success(InlineQueryHandler(None))
    case CompiledPattern(p) => Success(InlineQueryHandler(Some(p)))
    case PatternString(s) =>
      match re.compile(s)
      case Success(p) => Success(InlineQueryHandler(Some(p)))
      case Failure(e) => Failure(e)
  }

  /** `None` is NoMatch, `True` is Accepted, a match object is Matched. */
  datatype InlineCheck = NoMatch | Accepted | Matched(m: Match)

  /** `InlineQueryHandler.check_update`. */
  function CheckInlineQuery(h: InlineQueryHandler, u: Update, re: Regex): (r: InlineCheck)
    ensures InlineQueryOf(u).None? ==> r == NoMatch
    ensures r.Accepted? <==> InlineQueryOf(u).Some? && h.pattern.None?
    ensures h.pattern.Some? && InlineQueryOf(u).Some? && InlineQueryOf(u).value.query == "" ==> r == NoMatch
    ensures r.Matched? <==>
      && InlineQueryOf(u).Some? && h.pattern.Some? && InlineQueryOf(u).value.query != ""
      && re.matchStart(h.pattern.value, InlineQueryOf(u).value.query).Some?
    ensures r.Matched? ==> Some(r.m) == re.matchStart(h.pattern.value, InlineQueryOf(u).value.query)
  {
    match InlineQueryOf(u)
    case None => NoMatch
    case Some(q) =>
      match h.pattern
      case None => Accepted
      case Some(p) =>
        if q.query == "" then NoMatch
        else
          match re.matchStart(p, q.query)
          case Some(m) => Matched(m)
          case None => NoMatch
  }

  /** With an anchored matcher, an accepted match spans a prefix of a non-empty query. */
  lemma AnchoredResult(h: InlineQueryHandler, u: Update, re: Regex)
    requires Anchored(re)
    ensures CheckInlineQuery(h, u, re).Matched? ==>
      && CheckInlineQuery(h, u, re).m.start == 0
      && CheckInlineQuery(h, u, re).m.end <= |InlineQueryOf(u).value.query|
      && |InlineQueryOf(u).value.query| > 0
  {
  }

  /**
   * `InlineQueryHandler.collect_additional_context`: with a pattern,
   * `context.matches` becomes the one-element list of the match; without
   * one the context is left alone.
   */
  method CollectInlineQueryContext(h: InlineQueryHandler, context: CallbackContext, check: InlineCheck)
    requires check != NoMatch
    requires h.pattern.Some? ==> check.Matched?
    modifies context
    ensures h.pattern.Some? ==> context.attrs == old(context.attrs)["matches" := MatchList([check.m])]
    ensures h.pattern.None? ==> context.attrs == old(context.attrs)
  {
    if h.pattern.Some? {
      context.Set("matches", MatchList([check.m]));
    }
  }

  /** Whatever check_update accepts can be passed to collect_additional_context. */
  lemma CheckFeedsCollect(h: InlineQueryHandler, u: Update, re: Regex)
    ensures var r := CheckInlineQuery(h, u, re);
      r != NoMatch ==> (h.pattern.Some? ==> r.Matched?) && (h.pattern.None? ==> r.Accepted?)
  {
  }
}

=== FILE: pystr.dfy ===
/**
 * The Python string operations the handlers rely on: `str.isspace` on one
 * character, `str.lower`, slicing `s[i:j]`, `str.split()` (no separator)
 * and `str.split(sep)` with a one-character separator.
 */
module PyStr {

  /** The characters Python's `str.split()` treats as whitespace. */
  predicate IsSpace(c: char)
  {
    var n := c as int;
    || 0x09 <= n <= 0x0D
    || 0x1C <= n <= 0x20
    || n == 0x85 || n == 0xA0 || n == 0x1680
    || 0x2000 <= n <= 0x200A
    || n == 0x2028 || n == 0x2029 || n == 0x202F || n == 0x205F || n == 0x3000
  }

  /** A token of `str.split()`: non-empty and free of whitespace. */
  predicate IsToken(t: string)
  {
    |t| > 0 && forall i :: 0 <= i < |t| ==> !IsSpace(t[i])
  }

  predicate AllSpace(s: string)
  {
    forall i :: 0 <= i < |s| ==> IsSpace(s[i])
  }

  // ---------------------------------------------------------------------
  // str.lower (ASCII letters only)

  function LowerChar(c: char): (d: char)
    ensures 'A' <= c <= 'Z' ==> d as int == c as int + 32
    ensures !('A' <= c <= 'Z') ==> d == c
    ensures !('A' <= d <= 'Z')
  {
    if 'A' <= c <= 'Z' then (c as int + 32) as char else c
  }

  function Lower(s: string): (r: string)
    ensures |r| == |s|
    ensures forall i :: 0 <= i < |s| ==> r[i] == LowerChar(s[i])
  {
    seq(|s|, i requires 0 <= i < |s| => LowerChar(s[i]))
  }

  /** Lower-casing twice is lower-casing once. */
  lemma LowerIdempotent(s: string)
    ensures Lower(Lower(s)) == Lower(s)
  {
    assert forall i :: 0 <= i < |s| ==> Lower(Lower(s))[i] == Lower(s)[i];
  }

  /** Lower-casing works character by character, so it distributes over concatenation. */
  lemma LowerConcat(a: string, b: string)
    ensures Lower(a + b) == Lower(a) + Lower(b)
  {
    assert forall i :: 0 <= i < |a + b| ==> Lower(a + b)[i] == (Lower(a) + Lower(b))[i];
  }

  // ---------------------------------------------------------------------
  // Slicing s[i:j] for non-negative i and j: both ends are clamped to |s|
  // and an empty string results when j <= i.

  function Slice(s: string, i: nat, j: nat): (r: string)
    ensures |r| == (if j <= i || |s| <= i then 0 else (if j <= |s| then j else |s|) - i)
    ensures forall k :: 0 <= k < |r| ==> r[k] == s[i + k]
  {
    var hi := if j <= |s| then j else |s|;
    if hi <= i then "" else s[i..hi]
  }

  // ---------------------------------------------------------------------
  // str.split(): split on runs of whitespace, dropping empty tokens

  /** Length of the leading run of non-whitespace characters. */
  function TokenLen(s: string): (n: nat)
    ensures n <= |s|
    ensures forall i :: 0 <= i < n ==> !IsSpace(s[i])
    ensures n < |s| ==> IsSpace(s[n])
  {
    if |s| == 0 || IsSpace(s[0]) then 0 else 1 + TokenLen(s[1..])
  }

  function Split(s: string): (r: seq<string>)
    ensures forall k :: 0 <= k < |r| ==> IsToken(r[k])
    decreases |s|
  {
    if |s| == 0 then []
    else if IsSpace(s[0]) then Split(s[1..])
    else
      var n := TokenLen(s);
      [s[..n]] + Split(s[n..])
  }

  /** Tokens joined by single spaces: the inverse of `Split` on tokens. */
  function Join(ts: seq<string>): (r: string)
    ensures |ts| > 0 ==> |ts[0]| <= |r| && r[..|ts[0]|] == ts[0]
  {
    if |ts| == 0 then ""
    else if |ts| == 1 then ts[0]
    else ts[0] + " " + Join(ts[1..])
  }

  /** `s` with every whitespace character removed. */
  function Squeeze(s: string): (r: string)
    ensures |r| <= |s|
    ensures forall i :: 0 <= i < |r| ==> !IsSpace(r[i])
  {
    if |s| == 0 then ""
    else (if IsSpace(s[0]) then "" else [s[0]]) + Squeeze(s[1..])
  }

  function Concat(ts: seq<string>): (r: string)
    ensures |ts| > 0 ==> |ts[0]| <= |r| && r[..|ts[0]|] == ts[0]
  {
    if |ts| == 0 then "" else ts[0] + Concat(ts[1..])
  }

  /** `str.split()` yields no token exactly when the text is all whitespace. */
  lemma {:induction false} SplitEmptyIff(s: string)
    ensures Split(s) == [] <==> AllSpace(s)
    decreases |s|
  {
    if |s| > 0 && IsSpace(s[0]) {
      SplitEmptyIff(s[1..]);
      assert AllSpace(s[1..]) ==> AllSpace(s) by {
        if AllSpace(s[1..]) {
          forall i | 0 <= i < |s| ensures IsSpace(s[i]) {
            if i > 0 { assert s[i] == s[1..][i - 1]; }
          }
        }
      }
      assert AllSpace(s) ==> AllSpace(s[1..]) by {
        if AllSpace(s) {
          forall i | 0 <= i < |s[1..]| ensures IsSpace(s[1..][i]) {
            assert s[1..][i] == s[i + 1];
          }
        }
      }
    }
  }

  lemma {:induction false} TokenLenStopsAtSpace(a: string, w: char, b: string)
    requires IsSpace(w)
    ensures TokenLen(a + [w] + b) == TokenLen(a)
    decreases |a|
  {
    if |a| == 0 {
      assert (a + [w] + b)[0] == w;
    } else if !IsSpace(a[0]) {
      assert (a + [w] + b)[1..] == a[1..] + [w] + b;
      TokenLenStopsAtSpace(a[1..], w, b);
    }
  }

  /** Splitting at a whitespace character splits the two sides independently. */
  lemma {:induction false} SplitAtSpace(a: string, w: char, b: string)
    requires IsSpace(w)
    ensures Split(a + [w] + b) == Split(a) + Split(b)
    decreases |a|
  {
    var s := a + [w] + b;
    if |a| == 0 {
      assert s[0] == w && s[1..] == b;
    } else if IsSpace(a[0]) {
      assert s[0] == a[0] && s[1..] == a[1..] + [w] + b;
      SplitAtSpace(a[1..], w, b);
    } else {
      var n := TokenLen(a);
      TokenLenStopsAtSpace(a, w, b);
      assert s[0] == a[0];
      assert s[..n] == a[..n];
      assert s[n..] == a[n..] + [w] + b;
      SplitAtSpace(a[n..], w, b);
    }
  }

  /** Leading whitespace contributes no token. */
  lemma {:induction false} SplitLeadingSpace(ws: string, s: string)
    requires AllSpace(ws)
    ensures Split(ws + s) == Split(s)
    decreases |ws|
  {
    if |ws| > 0 {
      assert (ws + s)[0] == ws[0];
      assert (ws + s)[1..] == ws[1..] + s;
      SplitLeadingSpace(ws[1..], s);
    } else {
      assert ws + s == s;
    }
  }

  /** A token followed by a run of whitespace is the first token of the text. */
  lemma {:induction false} SplitAfterToken(t: string, ws: string, rest: string)
    requires IsToken(t) && |ws| > 0 && AllSpace(ws)
    ensures Split(t + ws + rest) == [t] + Split(rest)
  {
    SplitToken(t);
    SplitLeadingSpace(ws[1..], rest);
    assert t + ws + rest == t + [ws[0]] + (ws[1..] + rest);
    SplitAtSpace(t, ws[0], ws[1..] + rest);
  }

  /** A single token splits to itself. */
  lemma SplitToken(t: string)
    requires IsToken(t)
    ensures Split(t) == [t]
  {
    assert TokenLen(t) == |t| by { TokenLenOfToken(t); }
    assert t[..|t|] == t;
    assert t[|t|..] == "";
  }

  lemma {:induction false} TokenLenOfToken(t: string)
    requires forall i :: 0 <= i < |t| ==> !IsSpace(t[i])
    ensures TokenLen(t) == |t|
    decreases |t|
  {
    if |t| > 0 {
      TokenLenOfToken(t[1..]);
    }
  }

  /** Round trip: splitting tokens joined by single spaces gives the tokens back. */
  lemma {:induction false} SplitJoin(ts: seq<string>)
    requires forall k :: 0 <= k < |ts| ==> IsToken(ts[k])
    ensures Split(Join(ts)) == ts
    decreases |ts|
  {
    if |ts| == 1 {
      SplitToken(ts[0]);
    } else if |ts| > 1 {
      SplitToken(ts[0]);
      SplitJoin(ts[1..]);
      assert ts[0] + " " + Join(ts[1..]) == ts[0] + [' '] + Join(ts[1..]);
      SplitAtSpace(ts[0], ' ', Join(ts[1..]));
      assert ts == [ts[0]] + ts[1..];
    }
  }

  lemma {:induction false} SqueezeConcat(a: string, b: string)
    ensures Squeeze(a + b) == Squeeze(a) + Squeeze(b)
    decreases |a|
  {
    if |a| > 0 {
      assert (a + b)[0] == a[0] && (a + b)[1..] == a[1..] + b;
      SqueezeConcat(a[1..], b);
    } else {
      assert a + b == b;
    }
  }

  lemma {:induction false} SqueezeToken(t: string)
    requires forall i :: 0 <= i < |t| ==> !IsSpace(t[i])
    ensures Squeeze(t) == t
    decreases |t|
  {
    if |t| > 0 {
      SqueezeToken(t[1..]);
      assert t == [t[0]] + t[1..];
    }
  }

  /** No character is lost or invented: the tokens, concatenated, are the text without its whitespace. */
  lemma {:induction false} SplitKeepsContent(s: string)
    ensures Concat(Split(s)) == Squeeze(s)
    decreases |s|
  {
    if |s| > 0 {
      if IsSpace(s[0]) {
        SplitKeepsContent(s[1..]);
      } else {
        var n := TokenLen(s);
        SplitKeepsContent(s[n..]);
        assert s == s[..n] + s[n..];
        SqueezeConcat(s[..n], s[n..]);
        SqueezeToken(s[..n]);
        var r := Split(s);
        assert r == [s[..n]] + Split(s[n..]);
        assert r[1..] == Split(s[n..]);
      }
    }
  }

  // ---------------------------------------------------------------------
  // str.split(sep) with a one-character separator: keeps empty fields

  function SplitOn(s: string, sep: char): (r: seq<string>)
    ensures |r| >= 1
    ensures forall k :: 0 <= k < |r| ==> sep !in r[k]
    decreases |s|
  {
    if |s| == 0 then [""]
    else
      var rest := SplitOn(s[1..], sep);
      if s[0] == sep then [""] + rest
      else [[s[0]] + rest[0]] + rest[1..]
  }

  /** Fields joined with the separator between consecutive ones. */
  function JoinWith(fields: seq<string>, sep: char): (r: string)
    requires |fields| >= 1
    ensures |fields[0]| <= |r| && r[..|fields[0]|] == fields[0]
  {
    if |fields| == 1 then fields[0] else fields[0] + [sep] + JoinWith(fields[1..], sep)
  }

  /** Round trip: joining the fields with the separator gives back the text. */
  lemma {:induction false} SplitOnJoin(s: string, sep: char)
    ensures JoinWith(SplitOn(s, sep), sep) == s
    decreases |s|
  {
    if |s| > 0 {
      var rest := SplitOn(s[1..], sep);
      SplitOnJoin(s[1..], sep);
      if s[0] == sep {
        assert SplitOn(s, sep)[1..] == rest;
      } else {
        var r := SplitOn(s, sep);
        if |rest| == 1 {
          assert r == [[s[0]] + rest[0]];
        } else {
          assert r[1..] == rest[1..];
          assert JoinWith(rest, sep) == rest[0] + [sep] + JoinWith(rest[1..], sep);
        }
      }
    }
  }

  /** Without the separator in the text, the text is the only field. */
  lemma {:induction false} SplitOnAbsent(s: string, sep: char)
    requires sep !in s
    ensures SplitOn(s, sep) == [s]
    decreases |s|
  {
    if |s| > 0 {
      SplitOnAbsent(s[1..], sep);
      assert s == [s[0]] + s[1..];
    }
  }

  /** The first field is everything before the first separator, and the rest
      of the fields are those of the text after it. */
  lemma {:induction false} SplitOnFirst(a: string, sep: char, b: string)
    requires sep !in a
    ensures SplitOn(a + [sep] + b, sep) == [a] + SplitOn(b, sep)
    decreases |a|
  {
    var s := a + [sep] + b;
    if |a| == 0 {
      assert s[0] == sep && s[1..] == b;
    } else {
      assert s[0] == a[0] && s[1..] == a[1..] + [sep] + b;
      SplitOnFirst(a[1..], sep, b);
      assert a == [a[0]] + a[1..];
    }
  }
}

=== FILE: telegram.dfy ===
/**
 * The parts of a Telegram update, of a filter's verdict and of the callback
 * context that the handlers read or write.
 */
module Telegram {
  import opened Wrappers

  /** The exceptions the handlers can raise. */
  datatype PyError =
    | ValueError    // an invalid bot command given at construction
    | RegexError    // re.error: a pattern string that does not compile
    | TypeError     // slicing the text of a message that has none
    | IndexError    // taking the first token of a whitespace-only text
    | AttributeError // reading a field of None

  /** `MessageEntity.BOT_COMMAND`. */
  const BOT_COMMAND: string := "bot_command"

  datatype MessageEntity = MessageEntity(kind: string, offset: nat, length: nat)

  datatype Chat = Chat(id: int)

  datatype Bot = Bot(username: string)

  datatype Message = Message(
    chat: Chat,
    text: Option<string>,
    entities: seq<MessageEntity>,
    bot: Bot)

  datatype InlineQuery = InlineQuery(id: string, query: string)

  datatype CallbackQuery = CallbackQuery(id: string, data: Option<string>, message: Option<Message>)

  datatype MessageKind = NewMessage | EditedMessage | ChannelPost | EditedChannelPost

  /** Exactly one payload is present in an update. */
  datatype Payload =
    | MessagePayload(kind: MessageKind, message: Message)
    | InlineQueryPayload(inlineQuery: InlineQuery)
    | CallbackQueryPayload(callbackQuery: CallbackQuery)
    | OtherPayload

  datatype Update = Update(updateId: nat, payload: Payload)

  /** `update.effective_message`: the message of the four message kinds, None otherwise. */
  function EffectiveMessage(u: Update): (m: Option<Message>)
    ensures m.Some? <==> u.payload.MessagePayload?
    ensures m.Some? ==> m.value == u.payload.message
  {
    if u.payload.MessagePayload? then Some(u.payload.message) else None
  }

  /** `update.effective_chat`: the chat of the message, or of the message a callback query came from. */
  function EffectiveChat(u: Update): (c: Option<Chat>)
    ensures c.Some? <==> (u.payload.MessagePayload? || (u.payload.CallbackQueryPayload? && u.payload.callbackQuery.message.Some?))
    ensures u.payload.MessagePayload? ==> c == Some(u.payload.message.chat)
    ensures u.payload.CallbackQueryPayload? && u.payload.callbackQuery.message.Some? ==>
      c == Some(u.payload.callbackQuery.message.value.chat)
  {
    match u.payload
    case MessagePayload(_, m) => Some(m.chat)
    case CallbackQueryPayload(q) => if q.message.Some? then Some(q.message.value.chat) else None
    case _ => None
  }

  /** `update.inline_query`. */
  function InlineQueryOf(u: Update): (q: Option<InlineQuery>)
    ensures q.Some? <==> u.payload.InlineQueryPayload?
    ensures q.Some? ==> q.value == u.payload.inlineQuery
  {
    if u.payload.InlineQueryPayload? then Some(u.payload.inlineQuery) else None
  }

  /** `update.callback_query`. */
  function CallbackQueryOf(u: Update): (q: Option<CallbackQuery>)
    ensures q.Some? <==> u.payload.CallbackQueryPayload?
    ensures q.Some? ==> q.value == u.payload.callbackQuery
  {
    if u.payload.CallbackQueryPayload? then Some(u.payload.callbackQuery) else None
  }

  /** A regex match object; its span is [start, end) of the searched string. */
  datatype Match = Match(start: nat, end: nat, groups: seq<Option<string>>)

  /** A value stored as an attribute of the callback context. */
  datatype Value =
    | Tokens(tokens: seq<string>)       // context.args
    | MatchList(matches: seq<Match>)    // context.matches
    | Object(ref: nat)                  // any other object, known only by identity

  /** What a filter returns: a boolean (None reads as false) or a dict of extra context data. */
  datatype FilterResult = FilterBool(b: bool) | FilterDict(data: map<string, Value>)

  /** Python truthiness of a filter result: an empty dict is false. */
  predicate Truthy(fr: FilterResult)
  {
    match fr
    case FilterBool(b) => b
    case FilterDict(d) => d != map[]
  }

  /** A filter, as combined by the handler's constructor; its algebra is not modelled. */
  type Filter = Update -> FilterResult

  /**
   * The per-update context passed to the callback. Its state is the map
   * of attributes set on it (an attribute not in the map still has its
   * default, None).
   */
  class CallbackContext {
    var attrs: map<string, Value>

    constructor ()
      ensures attrs == map[]
    {
      attrs := map[];
    }

    /** `setattr(context, name, v)`. */
    method Set(name: string, v: Value)
      modifies this
      ensures attrs == old(attrs)[name := v]
      ensures name in attrs && attrs[name] == v
    {
      attrs := attrs[name := v];
    }

    /** `context.update(data)`: each key of `data` becomes an attribute, overriding an existing one. */
    method Merge(data: map<string, Value>)
      modifies this
      ensures attrs == old(attrs) + data
      ensures attrs.Keys == old(attrs).Keys + data.Keys
      ensures forall k :: k in data ==> attrs[k] == data[k]
      ensures forall k :: k in old(attrs) && k !in data ==> attrs[k] == old(attrs)[k]
    {
      attrs := attrs + data;
    }
  }
}

=== FILE: wrappers.dfy ===
/** Option and Result, used for Python's None and for raised exceptions. */
module Wrappers {

  datatype Option<+T> = None | Some(value: T)

  datatype Result<+R, +E> = Success(value: R) | Failure(error: E)
}
